=== FILE: README.md ===
# Geocoding service adapter, modelled in Dafny

This project models the core of `GeocodingService`, a small adapter that
turns a postal address into coordinates and address fields by calling
Google's geocoding API. The adapter also keeps a daily-quota flag in a
key-value cache and tells its callers whether each result may be cached.

The model has three pure parts, each with the network, the cache and the
clock taken out as explicit inputs:

- **Address normalisation** (`normaliseAddress`). An address is one line of
  text or a list of components. Components are joined with `", "`. Every
  run of newlines becomes `", "`. The result is trimmed with PHP's default
  `trim` characters: space, tab, newline, carriage return, NUL and vertical
  tab.
- **The daily-quota flag** (`markLimit`, `isOverLimit`). The cache namespace
  is a `map<string, string>`. `markLimit` stores the current time, rendered
  as a decimal string, under `dailyLimit`. `isOverLimit` reads that value
  back. It treats PHP-`empty` values (missing, `""`, `"0"`) as "not over
  the limit". Otherwise it compares `now - flag` with 86400.
- **The decision procedure of `geocode`.** The outcome of the HTTP request
  and of `json_decode` is an input `Response`. `Geocode` returns three
  things: the result record, the cache namespace after the call, and the
  normalised address the request was made for (`None` when no request was
  made).

Files:

- `wrappers.dfy`: `Option`.
- `text.dfy`: `trim`, the newline-run rewrite done by
  `preg_replace('/\n+/', ', ', …)`, `implode`, and decimal rendering and
  reading of timestamps.
- `address.dfy`: normalisation.
- `quota.dfy`: the quota flag.
- `geocoding.dfy`: responses, results, `geocode`, and the PHP array it
  returns.

## Code versus documentation

The model follows the code wherever the code and its comments disagree, and
where it behaves in ways a caller may not expect. These points are stated as
lemmas:

- **The quota test is inverted.** The comment on
  `code/GeocodingService.php:34` says it is fine to call again once 24 hours
  have passed. So a flag younger than 24 hours should block calls, and one
  exactly 24 hours old should not. But line 35 returns true only when
  strictly more than 24 hours have passed.
  - `Quota.OverLimitAfterMark` states exactly when the code's test is true.
  - `Quota.OverLimitVersusWindow` proves that the code and the comment never
    both block a call. They agree only at an age of exactly 86400 seconds,
    where neither blocks; at every other age, exactly one of them blocks.
  - `Quota.OverLimitPersists` proves that once the test is true, it stays
    true as time goes on.
  - `Geocoding.ProviderLimitThenNextCall` proves the result. After the
    provider reports `OVER_QUERY_LIMIT`, calls still go to the provider for
    the next 24 hours. Only after that does the flag block them, and it keeps
    blocking them until the cache itself drops the entry.
- **`StreetNumber` is always empty.** Line 123 reads `address_component`
  (singular), a key the provider never sends. So the street number is always
  `""`, whatever the first component holds (`Geocoding.StreetNumberAlwaysEmpty`).
- **A flag written at time 0 reads as empty.** It is stored as `"0"`, which
  PHP's `empty` accepts (`Quota.OverLimitAfterMark`).
- **A provider `UNKNOWN_ERROR` is cacheable.** Only the local
  `UNKNOWN_ERROR` (an unusable response) is uncacheable. The provider's own
  status `UNKNOWN_ERROR` goes down the generic error path, where the result
  is cacheable (`Geocoding.CacheableExactly`).

## Model

| member | source | states |
|---|---|---|
| Text.Trim | code/GeocodingService.php:43 | `trim` returns a slice of its input whose two ends are not trim characters, and everything cut away on either side is a trim character |
| Text.TrimUnique | code/GeocodingService.php:43 | reference definition: for any split of a string into trim characters, a trimmed middle and trim characters, `trim` returns that middle |
| Text.TrimFixpoint | code/GeocodingService.php:43 | `trim` leaves a string unchanged if and only if neither end is a trim character |
| Text.TrimIdempotent | code/GeocodingService.php:43 | trimming twice gives the same as trimming once |
| Text.TrimKeepsNoNewline | code/GeocodingService.php:43 | `trim` never introduces a newline into a string without one |
| Text.CollapseNewlines | code/GeocodingService.php:43 | rewriting `\n+` to `", "` leaves no newline, and a string without newlines comes back unchanged |
| Text.CollapseRun | code/GeocodingService.php:43 | a run of any positive number of newlines becomes exactly one `", "` |
| Text.CollapseConcat | code/GeocodingService.php:43 | the rewrite distributes over concatenation whenever the cut does not fall inside a newline run |
| Text.CollapseAroundRun | code/GeocodingService.php:43 | two newline-free texts around any positive number of newlines become the two texts joined by one `", "` |
| Text.CollapseNewlinesScan | code/GeocodingService.php:43 | the left-to-right match-and-replace scan of the regular-expression engine computes the same string as the rewrite |
| Text.Implode | code/GeocodingService.php:41 | `implode` of no pieces is empty; otherwise its length is the total length of the pieces plus one glue between each two neighbours |
| Text.ImplodeEnds | code/GeocodingService.php:41 | `implode` output starts with the first piece and ends with the last piece |
| Text.ImplodeAppend | code/GeocodingService.php:41 | imploding one more piece appends the glue and that piece |
| Text.ImplodeNoNewline | code/GeocodingService.php:41 | with newline-free glue, the joined string has no newline if and only if no piece has one |
| Text.DecimalString | code/GeocodingService.php:24 | `(string)time()` is a non-empty string of digits with no leading zero, and it is `"0"` exactly for time 0 |
| Text.DecimalRoundTrip | code/GeocodingService.php:24-35 | reading back the stored decimal string, as the subtraction on line 35 does, gives the stored time |
| Address.Normalise | code/GeocodingService.php:38-44 | a normalised address contains no newline and has no trim character at either end |
| Address.NormalisePartsAsLine | code/GeocodingService.php:40-43 | a list of components normalises to the same string as the components joined with `", "` given as one line |
| Address.NormaliseFixpoint | code/GeocodingService.php:43 | a line comes back unchanged if and only if it has no newline and no surrounding trim characters |
| Address.NormaliseIdempotent | code/GeocodingService.php:38-44 | normalising an already normalised address changes nothing |
| Address.NormaliseCleanParts | code/GeocodingService.php:40-43 | newline-free components whose first and last pieces have visible ends normalise to their plain `", "` join |
| Address.NormaliseNewlineRun | code/GeocodingService.php:43 | two newline-free lines of text whose outer ends are not trim characters, separated by any positive number of newlines, normalise to the two lines joined by one `", "` |
| Quota.MarkLimit | code/GeocodingService.php:22-25 | after `markLimit`, the flag key holds the decimal rendering of the current time and every other key is unchanged; the store stays well-formed |
| Quota.IsOverLimit | code/GeocodingService.php:27-36 | an empty flag (missing, `""` or `"0"`) never means over the limit, and over the limit implies the clock is past the first day |
| Quota.OverLimitAfterMark | code/GeocodingService.php:22-35 | after `markLimit` at time t, the service is over the limit at time now if and only if t is not 0 and now - t is strictly greater than 86400 |
| Quota.OverLimitVersusWindow | code/GeocodingService.php:34-35 | on a non-empty flag, the code's test and the comment's window (a flag younger than 86400 seconds blocks) are never both true, and they agree exactly when the flag is 86400 seconds old |
| Quota.EmptyFlagExactly | code/GeocodingService.php:24-30 | PHP's `empty` holds for the flag `markLimit` wrote if and only if it was written at time 0 |
| Quota.OverLimitPersists | code/GeocodingService.php:35 | once over the limit, the service stays over it at every later time while the flag is kept |
| Geocoding.Geocode | code/GeocodingService.php:65-136 | a request is made if and only if the service is not over the limit, and it is made for the normalised address; the flag changes only when the provider reports `OVER_QUERY_LIMIT`; the store stays well-formed; every failure has a non-empty message |
| Geocoding.ToArray | code/GeocodingService.php:58-60 | `Success` and `Cache` are always present; a success has `Latitude` and `Longitude` and no error entries; a failure has `Error` and `Message` and no coordinates |
| Geocoding.GeocodeOverLimit | code/GeocodingService.php:67-75 | over the limit: an uncacheable `OVER_QUERY_LIMIT` failure, no request made, the flag unchanged |
| Geocoding.GeocodeEmptyResponse | code/GeocodingService.php:87-97 | an unusable or PHP-empty response gives an uncacheable `UNKNOWN_ERROR` failure, with the flag unchanged |
| Geocoding.GeocodeProviderError | code/GeocodingService.php:99-114 | a status other than `OK` becomes the error code; the result is cacheable if and only if the status is not `OVER_QUERY_LIMIT`; only that status writes the current time into the flag |
| Geocoding.ExtractFields | code/GeocodingService.php:123-133 | field k of the result takes the long name (and, where the source reads it, the short name) of component k for k from 1 to 6, and every field is `""` when its position is past the end of the list; the street number is always `""` |
| Geocoding.ExtractFieldsOnlyPositions | code/GeocodingService.php:123-133 | the fields depend only on components 1 to 6: the coordinates, the first component and components past the sixth never change them |
| Geocoding.GeocodeSuccess | code/GeocodingService.php:116-135 | status `OK` gives a cacheable success with the first result's coordinates and fields taken from components 1 to 6 by position (`""` past the end of the list, coordinates `0.0` when there is no result), with the flag unchanged |
| Geocoding.StreetNumberAlwaysEmpty | code/GeocodingService.php:123 | every success has an empty street number, whatever the components hold |
| Geocoding.CacheableExactly | code/GeocodingService.php:68-113 | a result is cacheable if and only if the call was not short-circuited, the response was usable and its status is not `OVER_QUERY_LIMIT` |
| Geocoding.ProviderLimitThenNextCall | code/GeocodingService.php:27-35 | when the service was not over the limit and the provider reports its limit at a time now > 0, a later call at time t reaches the provider if and only if t - now is at most 86400 (at time 0 the flag `"0"` reads as empty) |

## Left out

- The HTTP request and its `CURLOPT` handling (`code/GeocodingService.php:82-85`) are network I/O. Their outcome is part of the `Response` input.
- `json_decode` (line 87) is a library routine. `Response` stands for its result:
  - `Empty` stands for every value PHP's `empty` accepts.
  - A decoded object without `status` is a `Payload` whose status is `""`. So is a non-empty decoded value that is not an object, such as `1`, `true`, `"abc"` or `[0]`: it passes the `empty` test on line 90, and line 100 reads its `status` as null. The result is a cacheable failure with error `""`.
  - A component name enters as PHP's string conversion (`'' . $x`) of the decoded value: `""` when the key is missing or the value is null or false, `"1"` for true, the number's text for a number.
  - A missing first result or a missing coordinate is read as `0.0`.
  - Decoded inputs on which the source throws are outside the abstraction. Examples are a JSON object as `status` (line 100 cannot convert it to a string) and a JSON object as `results` (line 116 cannot index it).
- A decoded result carrying a singular `address_component` key is outside the `Response` abstraction, which has only the provider's `address_components` list. On such a payload the source would fill `StreetNumber` from that key.
- Request-URL assembly, `urlencode` and the API key from `SiteConfig::config()` (lines 79-80) are left out. Message texts keep their fixed wording but drop the URL suffix.
- `getCache` / `SS_Cache::factory` and the Zend cache internals (lines 14-17) are framework code. This includes the store's own expiry. The store is any `map<string, string>` the caller passes, so an entry the cache has already dropped is simply absent.
- `floatval` (lines 121-122) is floating point. Coordinates are carried as `real` values copied from the response, without rounding.
- `time()` is the parameter `now`, a natural number of seconds.
- Geocode: one clock reading serves both the quota check and `markLimit`. In the source, `time()` is read twice, a network round trip apart.
- IsOverLimit: requires the flag to hold a digit string, because only `markLimit` writes that key. PHP's reading of other strings is not modelled: leading whitespace, signs, fractions and non-numeric text.
- PHP's 64-bit integers: `now - flag` is computed on unbounded integers. No real timestamp comes near the overflow.
- An `$address` that is neither a string nor an array is not modelled.
- PHP strings are byte strings, while the model uses characters. Every character the code matches is ASCII, and UTF-8 never uses ASCII bytes inside a multi-byte character, so the two agree.
- The `IGeocodingService` interface is only a declaration and is not part of this model.

=== FILE: address.dfy ===
/**
  Address normalisation, `normaliseAddress` of the geocoding service: the
  address is either one line of text or a list of components; components
  are imploded with ", ", every run of newlines becomes ", ", and the
  result is trimmed.
 */
module Address {
  import opened Text

  datatype Address = Line(text: string) | Parts(pieces: seq<string>)

  /** The single string an address stands for before normalisation. */
  function Flatten(address: Address): string {
    match address
    case Line(text) => text
    case Parts(pieces) => Implode(", ", pieces)
  }

  /** The normalised address sent to the geocoding service: no newline
      survives, and neither end carries a character `trim` strips. */
  function Normalise(address: Address): (r: string)
    ensures '\n' !in r
    ensures Trimmed(r)
  {
    var collapsed := CollapseNewlines(Flatten(address));
    TrimKeepsNoNewline(collapsed);
    Trim(collapsed)
  }

  /** A list of components normalises to the same string as those
      components joined by ", " and given as one line. */
  lemma NormalisePartsAsLine(pieces: seq<string>)
    ensures Normalise(Parts(pieces)) == Normalise(Line(Implode(", ", pieces)))
  {
  }

  /** A line is left unchanged exactly when it has no newline and no
      surrounding whitespace. */
  lemma NormaliseFixpoint(s: string)
    ensures Normalise(Line(s)) == s <==> '\n' !in s && Trimmed(s)
  {
    if '\n' !in s && Trimmed(s) {
      TrimFixpoint(s);
    }
  }

  /** Normalising an already normalised address changes nothing. */
  lemma NormaliseIdempotent(address: Address)
    ensures Normalise(Line(Normalise(address))) == Normalise(address)
  {
    NormaliseFixpoint(Normalise(address));
  }

  /** Components without newlines, whose first and last pieces start and
      end with visible characters, normalise to their plain ", " join. */
  lemma NormaliseCleanParts(pieces: seq<string>)
    requires |pieces| >= 1
    requires forall k :: 0 <= k < |pieces| ==> '\n' !in pieces[k]
    requires pieces[0] != [] && Trimmed(pieces[0])
    requires pieces[|pieces| - 1] != [] && Trimmed(pieces[|pieces| - 1])
    ensures Normalise(Parts(pieces)) == Implode(", ", pieces)
  {
    var joined := Implode(", ", pieces);
    ImplodeNoNewline(", ", pieces);
    assert CollapseNewlines(joined) == joined;
    JoinIsTrimmed(pieces);
    TrimFixpoint(joined);
  }

  lemma JoinIsTrimmed(pieces: seq<string>)
    requires |pieces| >= 1
    requires pieces[0] != [] && Trimmed(pieces[0])
    requires pieces[|pieces| - 1] != [] && Trimmed(pieces[|pieces| - 1])
    ensures Trimmed(Implode(", ", pieces))
  {
    var joined := Implode(", ", pieces);
    ImplodeEnds(", ", pieces);
    var last := pieces[|pieces| - 1];
    assert joined[0] == pieces[0][0];
    assert joined[|joined| - 1] == joined[|joined| - |last|..][|last| - 1] == last[|last| - 1];
  }

  /** A run of any number of newlines between two lines of text becomes a
      single ", " separator. */
  lemma NormaliseNewlineRun(before: string, k: nat, after: string)
    requires k >= 1
    requires '\n' !in before && '\n' !in after
    requires before != [] && !IsTrimChar(before[0])
    requires after != [] && !IsTrimChar(after[|after| - 1])
    ensures Normalise(Line(before + Newlines(k) + after)) == before + ", " + after
  {
    CollapseAroundRun(before, k, after);
    var joined := before + ", " + after;
    assert joined[0] == before[0];
    assert joined[|joined| - 1] == after[|after| - 1];
    TrimFixpoint(joined);
  }
}

=== FILE: geocoding.dfy ===
/**
  The decision procedure of `geocode`. The HTTP request and the JSON
  decoding are outside the model: their combined outcome enters as a
  `Response`, and the function returns the result record together with the
  cache namespace after the call and the normalised address that was sent
  (nothing when the call was short-circuited).
 */
module Geocoding {
  import opened Wrappers
  import opened Address
  import opened Quota

  /** One entry of `address_components`. Each name is PHP's string conversion
      of the decoded value, "" when it is missing, null or false. */
  datatype Component = Component(longName: string, shortName: string)

  /** One entry of `results`: its `geometry.location` and its components.
      A missing coordinate is read as 0.0, as `floatval(null)` does. */
  datatype Place = Place(lat: real, lng: real, components: seq<Component>)

  /** What the transport and the JSON decoder hand back. `Empty` covers a
      failed request and every decoded value PHP's `empty` accepts (null,
      false, 0, "", "0", an empty array); `Payload` is any other decoded value, whose
      `status` is read as "" when absent. A non-empty value that is not an
      object (`1`, `true`, `"abc"`, `[0]`) has no `status`, so it is a
      `Payload` with status "". */
  datatype Response = Empty | Payload(status: string, results: seq<Place>)

  datatype AddressFields = AddressFields(
    streetNumber: string,
    streetName: string, streetNameShort: string,
    suburb: string,
    council: string, councilShort: string,
    state: string, stateShort: string,
    country: string, countryShort: string,
    postCode: string)

  /** The result record: success carries the coordinates and the address
      fields, failure carries an error code, a message and whether the
      caller may cache it. */
  datatype GeocodeResult =
    | Located(latitude: real, longitude: real, fields: AddressFields)
    | Failed(error: string, message: string, cacheable: bool)
  {
    /** The `Success` entry. */
    predicate Success() {
      Located?
    }

    /** The `Cache` entry: whether the caller may remember this result. */
    predicate Cache() {
      Located? || cacheable
    }
  }

  /** The result, the cache namespace after the call, and the normalised
      address the request was made for, if one was made. */
  datatype Outcome = Outcome(result: GeocodeResult, store: Store, request: Option<string>)

  const StatusOk: string := "OK"
  const OverQueryLimit: string := "OVER_QUERY_LIMIT"
  const UnknownError: string := "UNKNOWN_ERROR"

  const OverLimitMessage: string := "Google geocoding service is over the daily limit. Please try again later."
  const UnreachableMessage: string := "Could not call google api at url "

  function ProviderErrorMessage(status: string): string {
    "Google error code: " + status + " at url "
  }

  /** `address_components[i]->long_name` coerced to a string: "" past the
      end of the list. */
  function LongName(components: seq<Component>, i: nat): string {
    if i < |components| then components[i].longName else ""
  }

  function ShortName(components: seq<Component>, i: nat): string {
    if i < |components| then components[i].shortName else ""
  }

  /** `results[0]`, or the empty place PHP's null reads as. */
  function FirstPlace(results: seq<Place>): Place {
    if |results| > 0 then results[0] else Place(0.0, 0.0, [])
  }

  /** The address fields, taken by fixed position. The street number is read
      from `address_component` (singular), a key the provider never sends,
      so it is always "". */
  function ExtractFields(place: Place): (f: AddressFields)
    ensures f.streetNumber == ""
    ensures var cs := place.components;
      (|cs| > 1 ==> f.streetName == cs[1].longName && f.streetNameShort == cs[1].shortName)
      && (|cs| > 2 ==> f.suburb == cs[2].longName)
      && (|cs| > 3 ==> f.council == cs[3].longName && f.councilShort == cs[3].shortName)
      && (|cs| > 4 ==> f.state == cs[4].longName && f.stateShort == cs[4].shortName)
      && (|cs| > 5 ==> f.country == cs[5].longName && f.countryShort == cs[5].shortName)
      && (|cs| > 6 ==> f.postCode == cs[6].longName)
    ensures var cs := place.components;
      (|cs| <= 1 ==> f.streetName == "" && f.streetNameShort == "")
      && (|cs| <= 2 ==> f.suburb == "")
      && (|cs| <= 3 ==> f.council == "" && f.councilShort == "")
      && (|cs| <= 4 ==> f.state == "" && f.stateShort == "")
      && (|cs| <= 5 ==> f.country == "" && f.countryShort == "")
    ensures |place.components| <= 1 ==> f == AddressFields("", "", "", "", "", "", "", "", "", "", "")
    ensures |place.components| <= 6 ==> f.postCode == ""
  {
    var cs := place.components;
    AddressFields(
      "",
      LongName(cs, 1), ShortName(cs, 1),
      LongName(cs, 2),
      LongName(cs, 3), ShortName(cs, 3),
      LongName(cs, 4), ShortName(cs, 4),
      LongName(cs, 5), ShortName(cs, 5),
      LongName(cs, 6))
  }

  /** Only components 1 to 6 decide the fields: two places that agree there,
      and agree on whether each of those positions exists, give the same
      fields, whatever their coordinates, first component or later
      components. */
  lemma ExtractFieldsOnlyPositions(p: Place, q: Place)
    requires |p.components| == |q.components| || (|p.components| >= 7 && |q.components| >= 7)
    requires forall i :: 1 <= i < 7 && i < |p.components| ==> p.components[i] == q.components[i]
    ensures ExtractFields(p) == ExtractFields(q)
  {
  }

  /** `geocode`. The flag is written only when the provider itself reports
      its daily limit; a request is made exactly when the service is not
      over its limit, and it is made for the normalised address. */
  function Geocode(store: Store, now: nat, address: Address, response: Response): (o: Outcome)
    requires ValidStore(store)
    ensures ValidStore(o.store)
    ensures o.request.None? <==> IsOverLimit(store, now)
    ensures o.request.Some? ==> o.request.value == Normalise(address)
    ensures o.store != store ==> response.Payload? && response.status == OverQueryLimit
    ensures o.result.Failed? ==> o.result.message != []
  {
    if IsOverLimit(store, now) then
      Outcome(Failed(OverQueryLimit, OverLimitMessage, false), store, None)
    else
      var query := Normalise(address);
      match response
      case Empty =>
        Outcome(Failed(UnknownError, UnreachableMessage, false), store, Some(query))
      case Payload(status, results) =>
        if status != StatusOk then
          var limitReached := status == OverQueryLimit;
          var store' := if limitReached then MarkLimit(store, now) else store;
          Outcome(Failed(status, ProviderErrorMessage(status), !limitReached), store', Some(query))
        else
          var place := FirstPlace(results);
          Outcome(Located(place.lat, place.lng, ExtractFields(place)), store, Some(query))
  }

  /** A value of the PHP array `geocode` returns. */
  datatype PhpValue = PhpBool(b: bool) | PhpFloat(x: real) | PhpString(s: string)

  /** The PHP array `geocode` returns for a result. As its documentation
      promises, `Success` and `Cache` are always present; a success carries
      `Latitude` and `Longitude` and no error entries, a failure carries
      `Error` and `Message` and no coordinates. */
  function ToArray(r: GeocodeResult): (a: map<string, PhpValue>)
    ensures "Success" in a && a["Success"] == PhpBool(r.Success())
    ensures "Cache" in a && a["Cache"] == PhpBool(r.Cache())
    ensures r.Success() ==> "Latitude" in a && "Longitude" in a && "Error" !in a && "Message" !in a
    ensures !r.Success() ==> "Error" in a && a["Error"] == PhpString(r.error)
    ensures !r.Success() ==> "Message" in a && a["Message"] == PhpString(r.message)
    ensures !r.Success() ==> "Latitude" !in a && "Longitude" !in a
  {
    match r
    case Failed(error, message, cacheable) =>
      map["Success" := PhpBool(false), "Error" := PhpString(error),
          "Message" := PhpString(message), "Cache" := PhpBool(cacheable)]
    case Located(latitude, longitude, f) =>
      map["Success" := PhpBool(true),
          "Latitude" := PhpFloat(latitude), "Longitude" := PhpFloat(longitude),
          "StreetNumber" := PhpString(f.streetNumber),
          "StreetName" := PhpString(f.streetName), "StreetNameShort" := PhpString(f.streetNameShort),
          "Suburb" := PhpString(f.suburb),
          "Council" := PhpString(f.council), "CouncilShort" := PhpString(f.councilShort),
          "State" := PhpString(f.state), "StateShort" := PhpString(f.stateShort),
          "Country" := PhpString(f.country), "CountryShort" := PhpString(f.countryShort),
          "PostCode" := PhpString(f.postCode),
          "Cache" := PhpBool(true)]
  }

  /** Over the limit: an uncacheable OVER_QUERY_LIMIT failure, no request,
      and the flag left as it was. */
  lemma GeocodeOverLimit(store: Store, now: nat, address: Address, response: Response)
    requires ValidStore(store) && IsOverLimit(store, now)
    ensures var o := Geocode(store, now, address, response);
      o.result.Failed? && o.result.error == OverQueryLimit && !o.result.Cache()
      && o.request == None && o.store == store
  {
  }

  /** No usable response: an uncacheable UNKNOWN_ERROR failure, flag unchanged. */
  lemma GeocodeEmptyResponse(store: Store, now: nat, address: Address)
    requires ValidStore(store) && !IsOverLimit(store, now)
    ensures var o := Geocode(store, now, address, Empty);
      o.result.Failed? && o.result.error == UnknownError && !o.result.Cache()
      && o.store == store
  {
  }

  /** A status other than "OK": the status becomes the error code, the result
      is cacheable unless the status is OVER_QUERY_LIMIT, and only that
      status writes the flag, with the current time. */
  lemma GeocodeProviderError(store: Store, now: nat, address: Address, status: string, results: seq<Place>)
    requires ValidStore(store) && !IsOverLimit(store, now)
    requires status != StatusOk
    ensures var o := Geocode(store, now, address, Payload(status, results));
      o.result.Failed? && o.result.error == status
      && (o.result.Cache() <==> status != OverQueryLimit)
      && o.store == (if status == OverQueryLimit then MarkLimit(store, now) else store)
  {
  }

  /** Status "OK": a cacheable success whose coordinates come from the first
      result and whose fields come from components 1 to 6 by position ("" for
      a position the list does not reach); the flag is left as it was. */
  lemma GeocodeSuccess(store: Store, now: nat, address: Address, results: seq<Place>)
    requires ValidStore(store) && !IsOverLimit(store, now)
    ensures var o := Geocode(store, now, address, Payload(StatusOk, results));
      var cs := if |results| > 0 then results[0].components else [];
      && o.result.Located? && o.result.Cache() && o.store == store
      && (|results| > 0 ==> o.result.latitude == results[0].lat && o.result.longitude == results[0].lng)
      && (|results| == 0 ==> o.result.latitude == 0.0 && o.result.longitude == 0.0)
      && o.result.fields.streetName == LongName(cs, 1)
      && o.result.fields.streetNameShort == ShortName(cs, 1)
      && o.result.fields.suburb == LongName(cs, 2)
      && o.result.fields.council == LongName(cs, 3)
      && o.result.fields.councilShort == ShortName(cs, 3)
      && o.result.fields.state == LongName(cs, 4)
      && o.result.fields.stateShort == ShortName(cs, 4)
      && o.result.fields.country == LongName(cs, 5)
      && o.result.fields.countryShort == ShortName(cs, 5)
      && o.result.fields.postCode == LongName(cs, 6)
  {
  }

  /** Because of the misspelt key, a success never carries a street number,
      whatever the first component says. */
  lemma StreetNumberAlwaysEmpty(store: Store, now: nat, address: Address, response: Response)
    requires ValidStore(store)
    ensures var o := Geocode(store, now, address, response);
      o.result.Located? ==> o.result.fields.streetNumber == ""
  {
    if !IsOverLimit(store, now) && response.Payload? && response.status == StatusOk {
      GeocodeSuccess(store, now, address, response.results);
    }
  }

  /** A result may be cached unless the call was short-circuited, the
      response was unusable, or the provider reported its daily limit. */
  lemma CacheableExactly(store: Store, now: nat, address: Address, response: Response)
    requires ValidStore(store)
    ensures Geocode(store, now, address, response).result.Cache()
      <==> !IsOverLimit(store, now) && response.Payload? && response.status != OverQueryLimit
  {
    if IsOverLimit(store, now) {
      GeocodeOverLimit(store, now, address, response);
    } else if response.Empty? {
      GeocodeEmptyResponse(store, now, address);
    } else if response.status == StatusOk {
      GeocodeSuccess(store, now, address, response.results);
    } else {
      GeocodeProviderError(store, now, address, response.status, response.results);
    }
  }

  /** What the code does after the provider reports its daily limit at time
      `now > 0`: for the next 24 hours calls are NOT short-circuited and reach
      the provider again; only strictly after that does the flag block them. */
  lemma ProviderLimitThenNextCall(store: Store, now: nat, address: Address, results: seq<Place>,
                                  later: nat, address': Address, response': Response)
    requires ValidStore(store) && !IsOverLimit(store, now)
    requires now > 0 && later >= now
    ensures var o := Geocode(store, now, address, Payload(OverQueryLimit, results));
      var o' := Geocode(o.store, later, address', response');
      o'.request.Some? <==> later - now <= SecondsPerDay
  {
    OverLimitAfterMark(store, now, later);
  }
}

=== FILE: quota.dfy ===
/**
  The daily-quota flag of the geocoding service (`markLimit` and
  `isOverLimit`). The service's cache namespace is a key-value store of
  strings; the flag lives under one key and holds the decimal rendering of
  the time at which the provider last reported its daily limit. The clock is
  an explicit parameter `now`, in whole seconds since the epoch.
 */
module Quota {
  import opened Wrappers
  import opened Text

  /** The service's cache namespace: string keys to string values. */
  type Store = map<string, string>

  const DailyLimitKey: string := "dailyLimit"

  /** The window the flag is measured against: 24 hours, in seconds. */
  const SecondsPerDay: int := 3600 * 24

  /** The cache's `load`: the stored value, or nothing when the key is absent. */
  function Load(store: Store, key: string): Option<string> {
    if key in store then Some(store[key]) else None
  }

  /** PHP `empty()` of a loaded value: a missing entry, "" and "0". */
  predicate IsEmptyValue(v: Option<string>) {
    v == None || v == Some("") || v == Some("0")
  }

  /** Only `markLimit` writes the flag's key, so whatever it holds is a
      rendered timestamp. */
  predicate ValidStore(store: Store) {
    DailyLimitKey in store ==> IsDigits(store[DailyLimitKey])
  }

  /** `markLimit`: stores the current time, as a decimal string, under the
      flag's key; every other key keeps its value. */
  function MarkLimit(store: Store, now: nat): (r: Store)
    ensures ValidStore(r)
    ensures Load(r, DailyLimitKey) == Some(DecimalString(now))
    ensures forall k :: k != DailyLimitKey ==> Load(r, k) == Load(store, k)
  {
    store[DailyLimitKey := DecimalString(now)]
  }

  /** `isOverLimit`: false while the flag is empty; otherwise true exactly
      when strictly more than 24 hours separate the stored time from now. */
  function IsOverLimit(store: Store, now: nat): (over: bool)
    requires ValidStore(store)
    ensures IsEmptyValue(Load(store, DailyLimitKey)) ==> !over
    ensures over ==> now > SecondsPerDay
  {
    match Load(store, DailyLimitKey)
    case None => false
    case Some(limit) =>
      if IsEmptyValue(Some(limit)) then false
      else now - DigitsValue(limit) > SecondsPerDay
  }

  /** The age, in seconds, of a non-empty flag at time `now`. */
  function FlagAge(store: Store, now: nat): int
    requires ValidStore(store) && DailyLimitKey in store
  {
    now - DigitsValue(store[DailyLimitKey])
  }

  /** What the comment beside `isOverLimit` describes ("it's ok if it's been
      24 hours"): a non-empty flag younger than 24 hours should block calls,
      and one exactly 24 hours old no longer does. The service does not use
      it; it is stated here to pin down how the code's test differs from it. */
  predicate WithinDailyWindow(store: Store, now: nat)
    requires ValidStore(store)
  {
    !IsEmptyValue(Load(store, DailyLimitKey)) && FlagAge(store, now) < SecondsPerDay
  }

  /** Reading back the flag `markLimit` wrote at time `marked`: the service
      reports "over limit" only once strictly more than 24 hours have passed,
      and never for a flag written at time 0 (PHP reads "0" as empty). */
  lemma {:induction false} OverLimitAfterMark(store: Store, marked: nat, now: nat)
    ensures IsOverLimit(MarkLimit(store, marked), now) <==> marked != 0 && now - marked > SecondsPerDay
  {
    DecimalRoundTrip(marked);
  }

  /** On a non-empty flag the code's test and the comment's window never
      both block: the code blocks only past 24 hours, the comment only before.
      They agree at exactly one age, 24 hours, where neither blocks. */
  lemma OverLimitVersusWindow(store: Store, now: nat)
    requires ValidStore(store)
    requires !IsEmptyValue(Load(store, DailyLimitKey))
    ensures !(IsOverLimit(store, now) && WithinDailyWindow(store, now))
    ensures IsOverLimit(store, now) <==> !WithinDailyWindow(store, now) && FlagAge(store, now) != SecondsPerDay
    ensures IsOverLimit(store, now) == WithinDailyWindow(store, now) <==> FlagAge(store, now) == SecondsPerDay
  {
  }

  /** PHP's `empty` on a flag `markLimit` wrote holds exactly for time 0,
      whose rendering is "0". */
  lemma EmptyFlagExactly(store: Store, marked: nat)
    ensures IsEmptyValue(Load(MarkLimit(store, marked), DailyLimitKey)) <==> marked == 0
  {
  }

  /** Once over the limit, the service stays over it as time goes on, for as
      long as the store keeps the flag. */
  lemma OverLimitPersists(store: Store, now: nat, later: nat)
    requires ValidStore(store)
    requires IsOverLimit(store, now) && now <= later
    ensures IsOverLimit(store, later)
  {
  }
}

=== FILE: text.dfy ===
/**
  String primitives the geocoding adapter relies on, modelled on PHP's
  behaviour for byte strings: `trim` with its default character list,
  `implode`, the regular-expression rewrite of newline runs, and the
  decimal rendering of an integer by a `(string)` cast.
 */
module Text {

  /** The characters PHP's `trim` strips when no list is given:
      space, tab, newline, carriage return, NUL and vertical tab. */
  predicate IsTrimChar(c: char) {
    c == ' ' || c == '\t' || c == '\n' || c == '\r' || c == '\0' || c == '\U{000B}'
  }

  predicate AllTrimChars(s: string) {
    forall i :: 0 <= i < |s| ==> IsTrimChar(s[i])
  }

  /** Neither end of `s` is a character `trim` would strip. */
  predicate Trimmed(s: string) {
    s == [] || (!IsTrimChar(s[0]) && !IsTrimChar(s[|s| - 1]))
  }

  // ---------------------------------------------------------------------------
  // trim

  /** Strips the leading run of trim characters. */
  function TrimLeft(s: string): (r: string)
    ensures |r| <= |s| && r == s[|s| - |r|..]
    ensures AllTrimChars(s[..|s| - |r|])
    ensures r == [] || !IsTrimChar(r[0])
  {
    if s != [] && IsTrimChar(s[0]) then
      var r := TrimLeft(s[1..]);
      assert s[..|s| - |r|] == [s[0]] + s[1..][..|s| - 1 - |r|];
      r
    else s
  }

  /** Strips the trailing run of trim characters. */
  function TrimRight(s: string): (r: string)
    ensures |r| <= |s| && r == s[..|r|]
    ensures AllTrimChars(s[|r|..])
    ensures r == [] || !IsTrimChar(r[|r| - 1])
  {
    if s != [] && IsTrimChar(s[|s| - 1]) then TrimRight(s[..|s| - 1]) else s
  }

  /** `r` is `s[i..j]`, and everything outside that slice is a trim character. */
  predicate StripsTo(s: string, r: string, i: int, j: int) {
    0 <= i <= j <= |s| && s[i..j] == r && AllTrimChars(s[..i]) && AllTrimChars(s[j..])
  }

  /** PHP `trim($s)`: the result is trimmed at both ends, and what was cut
      away on either side consisted of trim characters only. */
  function Trim(s: string): (r: string)
    ensures Trimmed(r)
    ensures exists i, j :: StripsTo(s, r, i, j)
  {
    TrimBothEndsStrips(s);
    TrimRight(TrimLeft(s))
  }

  lemma TrimBothEndsStrips(s: string)
    ensures exists i, j :: StripsTo(s, TrimRight(TrimLeft(s)), i, j)
  {
    var l := TrimLeft(s);
    var r := TrimRight(l);
    var i := |s| - |l|;
    var j := i + |r|;
    assert s[i..j] == r;
    assert s[j..] == l[|r|..];
    assert StripsTo(s, r, i, j);
  }

  lemma {:induction false} TrimLeftUnique(p: string, t: string)
    requires AllTrimChars(p)
    requires t == [] || !IsTrimChar(t[0])
    ensures TrimLeft(p + t) == t
    decreases |p|
  {
    if p == [] {
      assert p + t == t;
    } else {
      assert (p + t)[1..] == p[1..] + t;
      TrimLeftUnique(p[1..], t);
    }
  }

  lemma {:induction false} TrimRightUnique(t: string, q: string)
    requires AllTrimChars(q)
    requires t == [] || !IsTrimChar(t[|t| - 1])
    ensures TrimRight(t + q) == t
    decreases |q|
  {
    if q == [] {
      assert t + q == t;
    } else {
      assert (t + q)[..|t + q| - 1] == t + q[..|q| - 1];
      TrimRightUnique(t, q[..|q| - 1]);
    }
  }

  /** Reference characterisation of `trim`: whenever `s` splits into a run of
      trim characters, a trimmed middle and another run of trim characters,
      `trim` returns exactly that middle. */
  lemma TrimUnique(p: string, m: string, q: string)
    requires AllTrimChars(p) && AllTrimChars(q) && Trimmed(m)
    ensures Trim(p + m + q) == m
  {
    if m == [] {
      assert p + m + q == (p + q) + [];
      assert AllTrimChars(p + q);
      TrimLeftUnique(p + q, []);
      assert TrimLeft(p + m + q) == [];
    } else {
      assert p + m + q == p + (m + q);
      TrimLeftUnique(p, m + q);
      TrimRightUnique(m, q);
    }
  }

  /** `trim` leaves a string unchanged exactly when its ends are already
      free of trim characters. */
  lemma TrimFixpoint(s: string)
    ensures Trim(s) == s <==> Trimmed(s)
  {
    if Trimmed(s) {
      assert [] + s + [] == s;
      TrimUnique([], s, []);
    }
  }

  lemma TrimIdempotent(s: string)
    ensures Trim(Trim(s)) == Trim(s)
  {
    TrimFixpoint(Trim(s));
  }

  /** `trim` only removes characters, so it cannot introduce a newline. */
  lemma TrimKeepsNoNewline(s: string)
    requires '\n' !in s
    ensures '\n' !in Trim(s)
  {
    var t := Trim(s);
    var i, j :| StripsTo(s, t, i, j);
    SliceKeepsAbsent(s, '\n', i, j);
  }

  lemma SliceKeepsAbsent(s: string, c: char, i: nat, j: nat)
    requires c !in s && i <= j <= |s|
    ensures c !in s[i..j]
  {
  }

  // ---------------------------------------------------------------------------
  // preg_replace('/\n+/', ', ', $s)

  /** The sequence of `k` newline characters. */
  function Newlines(k: nat): (r: string)
    ensures |r| == k && forall i :: 0 <= i < k ==> r[i] == '\n'
  {
    if k == 0 then [] else ['\n'] + Newlines(k - 1)
  }

  predicate AllNewlines(s: string) {
    forall i :: 0 <= i < |s| ==> s[i] == '\n'
  }

  /** Drops the leading run of newlines of `s`: the rest of a match of `\n+`. */
  function DropNewlines(s: string): (r: string)
    ensures |r| <= |s| && r == s[|s| - |r|..]
    ensures AllNewlines(s[..|s| - |r|])
    ensures r == [] || r[0] != '\n'
  {
    if s != [] && s[0] == '\n' then DropNewlines(s[1..]) else s
  }

  /** Replaces every maximal run of one or more newlines by ", ", scanning
      left to right as the regular-expression engine does. */
  function CollapseNewlines(s: string): (r: string)
    ensures '\n' !in r
    ensures '\n' !in s ==> r == s
    decreases |s|
  {
    if s == [] then []
    else if s[0] == '\n' then ", " + CollapseNewlines(DropNewlines(s[1..]))
    else [s[0]] + CollapseNewlines(s[1..])
  }

  /** A run of newlines of any length becomes a single ", ". */
  lemma {:induction false} CollapseRun(k: nat)
    requires k >= 1
    ensures CollapseNewlines(Newlines(k)) == ", "
  {
    assert Newlines(k)[0] == '\n';
    assert DropNewlines(Newlines(k)[1..]) == [];
  }

  /** Two newline-free texts around a run of newlines become the two texts
      joined by ", ". */
  lemma CollapseAroundRun(before: string, k: nat, after: string)
    requires k >= 1
    requires '\n' !in before && '\n' !in after
    ensures CollapseNewlines(before + Newlines(k) + after) == before + ", " + after
  {
    var run := Newlines(k);
    assert before + run + after == before + (run + after);
    CollapseConcat(run, after);
    CollapseConcat(before, run + after);
    CollapseRun(k);
    ConcatAssoc(before, ", ", after);
  }

  lemma {:induction false} DropNewlinesAfterRun(a: string, b: string)
    requires AllNewlines(a)
    ensures DropNewlines(a + b) == DropNewlines(b)
    decreases |a|
  {
    if a == [] {
      assert a + b == b;
    } else {
      assert (a + b)[1..] == a[1..] + b;
      assert AllNewlines(a[1..]);
      DropNewlinesAfterRun(a[1..], b);
    }
  }

  lemma {:induction false} DropNewlinesBeforeText(a: string, b: string)
    requires !AllNewlines(a)
    ensures DropNewlines(a + b) == DropNewlines(a) + b
    decreases |a|
  {
    if a[0] == '\n' {
      assert (a + b)[1..] == a[1..] + b;
      assert !AllNewlines(a[1..]) by {
        var k :| 0 <= k < |a| && a[k] != '\n';
        assert a[1..][k - 1] == a[k];
      }
      DropNewlinesBeforeText(a[1..], b);
    }
  }

  /** Rewriting newline runs is compatible with concatenation as long as
      the cut does not split a run. */
  lemma {:induction false} CollapseConcat(a: string, b: string)
    requires a == [] || b == [] || a[|a| - 1] != '\n' || b[0] != '\n'
    ensures CollapseNewlines(a + b) == CollapseNewlines(a) + CollapseNewlines(b)
    decreases |a|
  {
    if a == [] {
      assert a + b == b;
    } else {
      assert (a + b)[1..] == a[1..] + b;
      var rest := a[1..];
      if a[0] != '\n' {
        CollapseConcat(rest, b);
        ConcatAssoc([a[0]], CollapseNewlines(rest), CollapseNewlines(b));
      } else if AllNewlines(rest) {
        CollapseRunThenText(a, b);
      } else {
        DropNewlinesBeforeText(rest, b);
        var d := DropNewlines(rest);
        assert d[|d| - 1] == a[|a| - 1];
        CollapseConcat(d, b);
        ConcatAssoc(", ", CollapseNewlines(d), CollapseNewlines(b));
      }
    }
  }

  /** A string made of one newline run followed by text that does not start
      with a newline. */
  lemma CollapseRunThenText(a: string, b: string)
    requires a != [] && a[0] == '\n' && AllNewlines(a[1..])
    requires b == [] || b[0] != '\n'
    ensures CollapseNewlines(a + b) == ", " + CollapseNewlines(b)
    ensures CollapseNewlines(a) == ", "
  {
    var rest := a[1..];
    assert (a + b)[1..] == rest + b;
    DropNewlinesAfterRun(rest, b);
    assert DropNewlines(rest) == [] by {
      assert rest + [] == rest;
      DropNewlinesAfterRun(rest, []);
    }
  }

  /** The left-to-right scan the regular-expression engine performs, with
      the inner loop consuming a whole run of newlines per match. */
  method CollapseNewlinesScan(s: string) returns (r: string)
    ensures r == CollapseNewlines(s)
  {
    r := [];
    var i := 0;
    assert s[i..] == s;
    while i < |s|
      invariant 0 <= i <= |s|
      invariant r + CollapseNewlines(s[i..]) == CollapseNewlines(s)
    {
      if s[i] == '\n' {
        var j := SkipNewlineRun(s, i);
        ConcatAssoc(r, ", ", CollapseNewlines(s[j..]));
        r := r + ", ";
        i := j;
      } else {
        CollapseAtText(s, i);
        ConcatAssoc(r, [s[i]], CollapseNewlines(s[i + 1..]));
        r := r + [s[i]];
        i := i + 1;
      }
    }
  }

  /** One match of `\n+` starting at `i`: returns the end of the run. */
  method SkipNewlineRun(s: string, i: nat) returns (j: nat)
    requires i < |s| && s[i] == '\n'
    ensures i < j <= |s|
    ensures CollapseNewlines(s[i..]) == ", " + CollapseNewlines(s[j..])
  {
    j := i + 1;
    while j < |s| && s[j] == '\n'
      invariant i + 1 <= j <= |s|
      invariant AllNewlines(s[i + 1..j])
    {
      assert s[i + 1..j + 1] == s[i + 1..j] + [s[j]];
      j := j + 1;
    }
    CollapseAtRun(s, i, j);
  }

  lemma ConcatAssoc(a: string, b: string, c: string)
    ensures (a + b) + c == a + (b + c)
  {}

  lemma CollapseAtRun(s: string, i: nat, j: nat)
    requires i < j <= |s| && s[i] == '\n'
    requires AllNewlines(s[i + 1..j])
    requires j == |s| || s[j] != '\n'
    ensures CollapseNewlines(s[i..]) == ", " + CollapseNewlines(s[j..])
  {
    assert s[i..][1..] == s[i + 1..];
    assert s[i + 1..] == s[i + 1..j] + s[j..];
    DropNewlinesAfterRun(s[i + 1..j], s[j..]);
  }

  lemma CollapseAtText(s: string, i: nat)
    requires i < |s| && s[i] != '\n'
    ensures CollapseNewlines(s[i..]) == [s[i]] + CollapseNewlines(s[i + 1..])
  {
    assert s[i..][1..] == s[i + 1..];
  }

  // ---------------------------------------------------------------------------
  // implode

  /** The number of characters of all pieces together. */
  function TotalLength(pieces: seq<string>): nat {
    if pieces == [] then 0 else |pieces[0]| + TotalLength(pieces[1..])
  }

  /** PHP `implode(glue, pieces)`: nothing for no pieces; otherwise every
      piece once, with one glue between each two neighbours. */
  function Implode(glue: string, pieces: seq<string>): (r: string)
    ensures |pieces| == 0 ==> r == []
    ensures |pieces| >= 1 ==> |r| == TotalLength(pieces) + |glue| * (|pieces| - 1)
  {
    if |pieces| == 0 then []
    else if |pieces| == 1 then pieces[0]
    else pieces[0] + glue + Implode(glue, pieces[1..])
  }

  /** Imploding one more piece appends the glue and that piece. */
  lemma {:induction false} ImplodeAppend(glue: string, pieces: seq<string>, last: string)
    requires |pieces| >= 1
    ensures Implode(glue, pieces + [last]) == Implode(glue, pieces) + glue + last
    decreases |pieces|
  {
    var all := pieces + [last];
    assert all[0] == pieces[0];
    if |pieces| == 1 {
      assert all[1..] == [last];
    } else {
      assert all[1..] == pieces[1..] + [last];
      ImplodeAppend(glue, pieces[1..], last);
      var rest := Implode(glue, pieces[1..]);
      assert Implode(glue, all) == pieces[0] + glue + (rest + glue + last);
      assert pieces[0] + glue + (rest + glue + last) == (pieces[0] + glue + rest) + glue + last;
    }
  }

  /** The imploded string begins with the first piece and ends with the last. */
  lemma {:induction false} ImplodeEnds(glue: string, pieces: seq<string>)
    requires |pieces| >= 1
    ensures var r := Implode(glue, pieces);
      |pieces[0]| <= |r| && r[..|pieces[0]|] == pieces[0]
      && |pieces[|pieces| - 1]| <= |r| && r[|r| - |pieces[|pieces| - 1]|..] == pieces[|pieces| - 1]
    decreases |pieces|
  {
    if |pieces| > 1 {
      var rest := Implode(glue, pieces[1..]);
      ImplodeEnds(glue, pieces[1..]);
      var r := pieces[0] + glue + rest;
      assert r[..|pieces[0]|] == pieces[0];
      assert r[|r| - |rest|..] == rest;
    }
  }

  /** The imploded string is free of newlines exactly when every piece is,
      provided the glue is. */
  lemma {:induction false} ImplodeNoNewline(glue: string, pieces: seq<string>)
    requires '\n' !in glue
    ensures '\n' !in Implode(glue, pieces) <==> forall k :: 0 <= k < |pieces| ==> '\n' !in pieces[k]
    decreases |pieces|
  {
    if |pieces| > 1 {
      ImplodeNoNewline(glue, pieces[1..]);
      var rest := Implode(glue, pieces[1..]);
      assert '\n' in pieces[0] + glue + rest <==> '\n' in pieces[0] || '\n' in glue || '\n' in rest;
      assert forall k :: 1 <= k < |pieces| ==> pieces[k] == pieces[1..][k - 1];
    }
  }

  // ---------------------------------------------------------------------------
  // (string) cast of a non-negative integer, and its numeric reading

  predicate IsDigit(c: char) {
    '0' <= c <= '9'
  }

  predicate IsDigits(s: string) {
    forall i :: 0 <= i < |s| ==> IsDigit(s[i])
  }

  function DigitChar(d: nat): (c: char)
    requires d < 10
    ensures IsDigit(c)
  {
    "0123456789"[d]
  }

  function DigitValue(c: char): nat
    requires IsDigit(c)
  {
    (c as int - '0' as int) as nat
  }

  /** The integer a string of decimal digits denotes, as PHP's arithmetic
      reads a numeric string. */
  function DigitsValue(s: string): nat
    requires IsDigits(s)
  {
    if s == [] then 0 else DigitsValue(s[..|s| - 1]) * 10 + DigitValue(s[|s| - 1])
  }

  /** The canonical decimal rendering `(string)$n`: non-empty, digits only,
      and without a leading zero unless it is "0" itself. */
  function DecimalString(n: nat): (s: string)
    ensures s != [] && IsDigits(s)
    ensures s[0] == '0' ==> s == "0" && n == 0
    ensures n == 0 ==> s == "0"
  {
    if n < 10 then [DigitChar(n)] else DecimalString(n / 10) + [DigitChar(n % 10)]
  }

  /** Reading back a rendered integer yields that integer. */
  lemma {:induction false} DecimalRoundTrip(n: nat)
    ensures DigitsValue(DecimalString(n)) == n
  {
    var s := DecimalString(n);
    if n >= 10 {
      DecimalRoundTrip(n / 10);
      assert s[..|s| - 1] == DecimalString(n / 10);
    }
  }
}

=== FILE: wrappers.dfy ===
/** The Some/None datatype used for values that a key-value lookup may not find. */
module Wrappers {

  datatype Option<+T> = None | Some(value: T)
}
